=== FILE: README.md ===
# ClarifyAI request decisions, in Dafny

This project models the request-decision logic of the ClarifyAI JSON-repair service (`main.py`).
The service has a free demo route and a metered route. The metered route is gated by an API key
and a per-account credit balance.

Every external call is an input, never something the model computes:

- the heuristic repair library (`repair_json`);
- the JSON decoder (`json.loads`);
- the chat-completion service;
- the profile query;
- the credits update.

What is left is a finite, sequential decision procedure. The model states its ordering, its
arithmetic, which external calls it issues, and the fact that it has no side effect on failure.

Modules, one per component of the service:

- `Wrappers`, `Json`: an option type, JSON values, and the outcome of a decode.
- `Services`: the observable outcomes of each external collaborator. The chat outcome includes
  the client raising a JSON decode error on a malformed response body.
  - `Repairers` bundles the repair library and the decoder, both deterministic and so modelled as
    functions of their input, with the chat outcome.
  - `Env` adds the outcomes of the one profile query and the one credits update.
  - `Call` names the external calls. Both pipeline tiers, the pipeline, the gate (`Admit`) and
    every handler report the calls they issue, in order.
    That is how "the chat client is called exactly once" and "no lookup before a 401" are stated.
- `RepairPipeline`: `perform_repair`. The heuristic tier runs first. On any failure of it, the
  request falls back to exactly one call of the chat client.
- `AccessGate`: `get_profile_by_api_key` and the admission checks of the metered route.
  - The checks run as 401, 403, 402, 413, in that order.
  - `FirstRejection` is an independent, declarative reading of the gate: the earliest failing
    check in a priority list decides.
- `CreditLedger`: `decrement_credit`. It makes one blind write of the snapshot's credits minus
  one and returns that value whether or not the write went through.
  - The table is a `map<Id, int>`.
  - An update whose id matches no row leaves the table unchanged, as an `update … where id = …`
    does.
- `Routes`: `repair_demo` and `repair_endpoint`. Each handler is a pure function returning the
  response, the credits table afterwards, and the calls it issued.
  - The metered route is split the way the source is: the gate, then the `try` block
    (`RepairAndBill`).

Facts about the code that the model keeps:

- Credits are an unbounded integer. The gate tests `credits <= 0`, so it refuses a negative
  balance like a zero one.
- The decoder has three outcomes: a value, a JSON decode error, or another exception (a
  recursion error on deeply nested text, a value error on an over-long integer literal). Only
  the decode error is caught as `JSONDecodeError` by the metered route.
- A completion whose content is absent is still handed to `json.loads`. Decoding `None` raises
  a type error, not a decode error, so the metered route reports "Repair failed" for it, not
  "Repair produced invalid JSON".
- The chat client decodes the response body itself. A malformed body makes it raise a JSON decode
  error, which the metered route reports as "Repair produced invalid JSON", like content that
  does not decode.
- An API key header that is present but empty is refused with 401, like an absent one, because
  the route tests the header's truthiness.

## Model

| member | source | states |
|---|---|---|
| RepairPipeline.HeuristicStep | main.py:47-51 | Tier 1 yields a value exactly when the library returns text and that text decodes, and the value is the decoded one. The library is called exactly once, first. The decoder is called at most once, and exactly when the library returned text. The chat service is never called here. |
| RepairPipeline.LlmStep | main.py:53-67 | Tier 2 makes exactly one chat call, first, and at most one decoder call, issued exactly when the client returned a completion, even one without content. It yields a value exactly when the content is present and decodes. It yields an invalid-JSON failure exactly when a decode error is raised: by the client on a malformed response body, or by the decoder on present content. Everything else is an "other" failure: the chat call raised otherwise, the content is absent, or the decoder raised another exception. |
| RepairPipeline.PerformRepair | main.py:46-67 | If Tier 1 decodes, the result is that value labelled heuristic and the chat client is called zero times. Otherwise it is called exactly once; the route adds no retry of its own. The repair library is called exactly once, and Tier 1's calls come first, before any of Tier 2's. On that path the result is the chat content's decoded value labelled llm, a decode-error failure exactly when the LLM tier raised a decode error (the client on the body, or the decoder on the content), and an "other" failure in every remaining case. The repair library is always called first, and the pipeline issues no profile query or credit write. |
| RepairPipeline.TierReflectsPath | main.py:46-67 | A success is labelled heuristic exactly when Tier 1 decoded. It is labelled llm exactly when Tier 1 failed and the chat content decoded. |
| RepairPipeline.RepairedValueWasDecoded | main.py:48-67 | Every value the pipeline returns was produced by the JSON decoder from some text. Undecoded text is never returned. |
| RepairPipeline.FailureComesFromLlmTier | main.py:51-67 | A Tier 1 failure never escapes, whether the repair raised or the decode did. The pipeline fails with a decode error exactly when Tier 1 failed and the LLM tier raised a decode error: the client on a malformed response body, or the decoder on the content. It fails with another exception exactly when Tier 1 failed and the LLM tier neither decoded nor raised a decode error: the chat call raised otherwise, returned no content, or the decoder raised another exception. |
| AccessGate.GetProfileByApiKey | main.py:69-90 | The lookup gives none exactly when the query raised or returned no rows, so an error and "not found" are the same outcome. Otherwise it gives the first row. |
| AccessGate.Admit | main.py:126-135 | The gate admits exactly when the key is non-empty, a profile is found, its credits are positive and the input is at most 50000 characters. An admitted profile is the first row. A profile query is issued exactly when a key is present, and it is the only call the gate makes. |
| AccessGate.FirstRejection | main.py:126-135 | As a priority order, a check list passes exactly when no check rejects. Otherwise the verdict is the error of a rejecting check that has no rejecting check before it. |
| AccessGate.AdmitFollowsCheckOrder | main.py:126-135 | The gate's decision equals the earliest failing check of the ordered list: missing key 401, unknown key 403, no credits 402, input over 50000 characters 413. |
| AccessGate.CreditsCheckedBeforeSize | main.py:132-135 | An oversized request from an account with no credits gets 402, not 413. |
| CreditLedger.Update | main.py:95 | The update keyed by id sets that row if it exists. It never adds or removes a row and leaves every other row as it was. |
| CreditLedger.DecrementCredit | main.py:92-98 | The returned balance is the snapshot's credits minus one, whatever the write did. A write that went through sets only the profile's row to that value. A write that raised is taken not to have taken effect and leaves the table unchanged. |
| CreditLedger.CreditsLeftIgnoresWriteOutcome | main.py:94-98 | The returned balance is the same whether the write went through or raised. |
| CreditLedger.DecrementStaysNonNegative | main.py:92-93 | From a snapshot with positive credits, both the reported balance and the written balance are at least zero. |
| Routes.RepairDemo | main.py:110-119 | The demo route answers 413 "Input too large for demo" exactly when the input is over 5000 characters, and then makes no external call. Within the limit its calls are exactly the pipeline's. Otherwise it answers 200 with the pipeline's value and tier exactly when the pipeline succeeds, and every failure is 500 "Repair failed". It never reads or writes the credits table. |
| Routes.DemoSizeBoundary | main.py:112-113 | An input of exactly 5000 characters reaches the pipeline. One of 5001 is refused with 413 before any call. |
| Routes.RepairAndBill | main.py:137-149 | For an admitted profile, the response is 200 exactly when the repair succeeds. Its body carries the repaired value, its tier label and the snapshot's credits minus one. Its calls are exactly the pipeline's, followed by the one credit write on success. A repair failure is a 500 that leaves the table unchanged. Its detail is "Repair produced invalid JSON" exactly for a decode error and "Repair failed" exactly for any other exception. |
| Routes.RepairAndBillCalls | main.py:137-139 | Exactly one credit write is issued on success, as the last call after every pipeline call. None is issued on failure, and no profile is queried. |
| Routes.RepairAndBillLedger | main.py:137-139 | The table keeps its rows, and every row but the admitted profile's is unchanged. That row becomes the snapshot's credits minus one only when the repair succeeded and the write went through, whatever it held before. A write that raised is taken not to have taken effect and changes nothing. |
| Routes.RepairEndpoint | main.py:121-149 | The metered route answers 401 exactly for an absent or empty key, with no call issued. It answers 403 exactly for a key whose lookup found nothing, 402 exactly for a found profile without positive credits, and 413 exactly for a funded profile with input over 50000 characters. Each gate exit carries the gate's own status and message ("API key missing", "Invalid API key", "Insufficient credits", "Input too large"), after exactly the gate's calls: none for 401, the one profile query for 403, 402 and 413. On these exits no pipeline call or write is issued and the table is unchanged. Past the gate, the answer is that of the `try` block after the one profile query. |
| Routes.MeteredOutcome | main.py:137-149 | The metered route answers 200 exactly when the gate admits and the repair succeeds, reporting credits_left equal to the snapshot's credits minus one, which is never negative, with exactly one credit write. It answers 500 exactly when the gate admits and the repair fails. Any non-200 answer writes nothing and leaves the table unchanged. |
| Routes.WriteFailureDoesNotChangeResponse | main.py:139-144 | A credit write that raised gives the caller the same response as one that went through, and leaves the table unchanged. |
| Routes.LookupErrorIsForbidden | main.py:82-84 | With a key present, a profile query that raised gives 403 "Invalid API key" after just that query: the gate fails closed. |
| Routes.RoutesReportInvalidJsonDifferently | main.py:145-149 | When Tier 1 fails and the LLM tier raises a decode error, the metered route answers 500 "Repair produced invalid JSON". On the same input the demo route answers 500 "Repair failed". |

## Left out

- Application setup: the FastAPI app, CORS middleware, loading settings from environment
  variables and the startup errors for missing settings (main.py:13-37). These are framework and
  configuration plumbing.
- The `/health` and `/` routes (main.py:102-108). They return constant bodies.
- Logging. It has no effect on responses or on the table.
- The internals of `repair_json` and `json.loads`. They are foreign libraries, modelled as
  uninterpreted functions. So "valid JSON passes Tier 1 unchanged" is not stated.
- The chat request itself: the prompt text, the model name and the system role (main.py:53-65).
  Only the outcomes the route can observe are modelled: content present, content absent, a JSON
  decode error raised by the client, or another exception. The prompt is a fixed function of the input, so the chat outcome is one input per
  request.
- The query-builder mechanics of the profile store (main.py:74-81, 95). The query is an input
  (rows or an exception), and the update is a map update keyed by id.
- The link between the profile query and the credits table. The query outcome is an input, not
  read from the table, because the service only observes a snapshot.
- CreditLedger.DecrementCredit: `WriteRaised` means the update did not take effect. An update
  that the store applied but whose response was lost, so that `execute()` still raised, is not
  modelled. The code cannot tell the two apart: it only logs the exception.
- The lost update between concurrent requests on one account. Two requests can both read the same
  snapshot and both write the same decremented value. It is a property of interleavings, and the
  code has no atomic conditional decrement to verify.
- Request-body validation by the framework. A body without `broken_json` is rejected before the
  handler runs.
- A profile row whose credits column is null. Comparing it raises outside any `try` block and
  ends in the framework's generic 500. Credits are modelled as an integer.
- Character counting. Dafny's `char` is a Unicode scalar value and Python's `len` counts code
  points, so the two differ only for lone surrogates, which are not modelled.
- Decoded values that the response cannot encode. `JNumber` carries an integer and `JString` a
  string of Unicode scalar values. Not modelled:
  - fractions and exponents;
  - the non-finite numbers `NaN`, `Infinity` and `-Infinity`, which `json.loads` accepts;
  - strings holding a lone surrogate, which `json.loads` yields for an escape such as `\ud800`,
    for example in the chat content.
  The framework's response encoder refuses a non-finite number, and its UTF-8 encoding raises on
  a lone surrogate, in both cases after the handler has returned. For such a value the client
  gets a generic 500 where `Routes.RepairDemo`, `Routes.RepairEndpoint` and
  `Routes.MeteredOutcome` answer 200. On the metered route the credit decrement (main.py:139)
  has already run, so the caller is billed for the 500.
- The chat client's own retries. Within one `create` call the OpenAI client retries connection
  errors and 408, 409, 429 and 5xx answers, twice by default. The model counts calls to the
  client, not requests sent to the chat service.

=== FILE: gate.dfy ===
/** The admission gate of the metered route: resolve the API key to a profile, then reject in a
    fixed order (missing key, unknown key, no credits, oversized input) before any repair. */
module AccessGate {
  import opened Wrappers
  import opened Services

  /** Largest input, in characters, the metered route accepts. */
  const MeteredLimit: nat := 50000

  /** `get_profile_by_api_key`: the first row the query selected, or none. An exception from the
      query and an empty row list are folded into the same "none", so the gate fails closed. */
  function GetProfileByApiKey(q: Query): (p: Option<Profile>)
    ensures p.None? <==> q.QueryRaised? || |q.rows| == 0
    ensures p.Some? ==> q.Rows? && p.value in q.rows && p.value == q.rows[0]
  {
    match q
    case QueryRaised => None
    case Rows(rows) => if |rows| == 0 then None else Some(rows[0])
  }

  /** The route reads the header with Python truthiness: an absent header and an empty one are
      both missing. */
  predicate KeyPresent(key: Option<string>)
  {
    key.Some? && key.value != ""
  }

  /** The gate's decision: the profile it admitted, or the HTTP error it raised. */
  datatype Admission = Admitted(profile: Profile) | Rejected(status: int, detail: string)

  /** The gate as the route runs it. The profile is looked up only once a key is present, and
      the result records that lookup as the only external call. */
  function Admit(key: Option<string>, q: Query, size: nat): (s: Step<Admission>)
    ensures s.calls == if KeyPresent(key) then [ProfileQueryCall] else []
    ensures s.result.Admitted? <==>
              KeyPresent(key) && GetProfileByApiKey(q).Some?
              && GetProfileByApiKey(q).value.credits > 0 && size <= MeteredLimit
    ensures s.result.Admitted? ==> q.Rows? && |q.rows| > 0 && s.result.profile == q.rows[0]
    ensures s.result.Rejected? ==> s.result.status in {401, 402, 403, 413}
  {
    if !KeyPresent(key) then Step(Rejected(401, "API key missing"), [])
    else
      var profile := GetProfileByApiKey(q);
      if profile.None? then Step(Rejected(403, "Invalid API key"), [ProfileQueryCall])
      else if profile.value.credits <= 0 then
        Step(Rejected(402, "Insufficient credits"), [ProfileQueryCall])
      else if size > MeteredLimit then Step(Rejected(413, "Input too large"), [ProfileQueryCall])
      else Step(Admitted(profile.value), [ProfileQueryCall])
  }

  /** One admission check, stated on its own: whether it rejects, and the error it raises. */
  datatype Check = Check(rejects: bool, status: int, detail: string)

  /** The verdict of a list of checks taken as a priority order. */
  datatype Verdict = Pass | Reject(status: int, detail: string)

  /** The earliest rejecting check decides; a list with no rejecting check passes. */
  function FirstRejection(checks: seq<Check>): (v: Verdict)
    ensures v.Pass? <==> forall i :: 0 <= i < |checks| ==> !checks[i].rejects
    ensures v.Reject? ==>
              exists i :: 0 <= i < |checks| && checks[i].rejects
                          && v == Reject(checks[i].status, checks[i].detail)
                          && forall j :: 0 <= j < i ==> !checks[j].rejects
  {
    if |checks| == 0 then Pass
    else if checks[0].rejects then Reject(checks[0].status, checks[0].detail)
    else
      var v := FirstRejection(checks[1..]);
      assert forall i :: 1 <= i < |checks| ==> checks[i] == checks[1..][i - 1];
      v
  }

  /** The gate's four checks in the order the route makes them, each stated independently of
      the others. */
  function GateChecks(key: Option<string>, q: Query, size: nat): seq<Check>
  {
    var profile := GetProfileByApiKey(q);
    [ Check(!KeyPresent(key), 401, "API key missing"),
      Check(profile.None?, 403, "Invalid API key"),
      Check(profile.Some? && profile.value.credits <= 0, 402, "Insufficient credits"),
      Check(size > MeteredLimit, 413, "Input too large") ]
  }

  /** The gate rejects exactly as the first failing check of `GateChecks` does. */
  lemma AdmitFollowsCheckOrder(key: Option<string>, q: Query, size: nat)
    ensures Admit(key, q, size).result.Admitted? <==> FirstRejection(GateChecks(key, q, size)).Pass?
    ensures Admit(key, q, size).result.Rejected? ==>
              FirstRejection(GateChecks(key, q, size))
              == Reject(Admit(key, q, size).result.status, Admit(key, q, size).result.detail)
  {
    var checks := GateChecks(key, q, size);
    var profile := GetProfileByApiKey(q);
    // Peel the list one check at a time, in the order the route tests them.
    if !KeyPresent(key) {
      assert checks[0].rejects;
    } else {
      assert FirstRejection(checks) == FirstRejection(checks[1..]);
      if profile.None? {
        assert checks[1..][0].rejects;
      } else {
        assert FirstRejection(checks[1..]) == FirstRejection(checks[2..]);
        if profile.value.credits <= 0 {
          assert checks[2..][0].rejects;
        } else {
          assert FirstRejection(checks[2..]) == FirstRejection(checks[3..]);
          if size > MeteredLimit {
            assert checks[3..][0].rejects;
          } else {
            assert FirstRejection(checks[3..]) == FirstRejection(checks[4..]);
            assert checks[4..] == [];
          }
        }
      }
    }
  }

  /** Because credits are checked before size, an oversized request from an account without
      credits is refused for payment, not for size. */
  lemma CreditsCheckedBeforeSize(key: Option<string>, q: Query, size: nat)
    requires KeyPresent(key) && q.Rows? && |q.rows| > 0 && q.rows[0].credits <= 0
    requires size > MeteredLimit
    ensures Admit(key, q, size).result == Rejected(402, "Insufficient credits")
  {
  }
}

=== FILE: json.dfy ===
/** The JSON values the service hands back to callers, and the outcome of decoding text into one. */
module Json {

  /** A decoded JSON value. The service never inspects one: it only passes the value that a
      decode produced on to the response. This type covers numbers that are integers and
      strings of Unicode scalar values only; other numbers and strings holding lone surrogates
      are not represented. */
  datatype Json =
    | JNull
    | JBool(b: bool)
    | JNumber(n: int)
    | JString(s: string)
    | JArray(items: seq<Json>)
    | JObject(members: seq<(string, Json)>)

  /** What decoding a string does: yield a value, raise a JSON decode error, or raise some other
      exception (a recursion error on deeply nested text, a value error on an over-long integer
      literal). Only the decode error is a `JSONDecodeError` to the routes. */
  datatype Decoded = Parsed(value: Json) | DecodeError | LoadsRaised
}

=== FILE: ledger.dfy ===
/** The credit ledger step `decrement_credit`: one blind write of the snapshot's credits minus one,
    whose failure is swallowed. */
module CreditLedger {
  import opened Services

  /** The update `credits := value where id = target`. It never creates a row: an id with no row
      matches nothing and leaves the table as it was. */
  function Update(store: Store, target: Id, value: int): (s: Store)
    ensures s.Keys == store.Keys
    ensures target in store ==> s[target] == value
    ensures forall other :: other in store && other != target ==> s[other] == store[other]
  {
    if target in store then store[target := value] else store
  }

  /** The value `decrement_credit` returns and the table after its write. */
  datatype Decrement = Decrement(creditsLeft: int, store: Store)

  /** `decrement_credit(id, current)`: compute `current - 1` from the snapshot, write it keyed by
      id, and return it whether or not the write went through. */
  function DecrementCredit(store: Store, id: Id, current: int, w: Write): (d: Decrement)
    ensures d.creditsLeft == current - 1
    ensures d.store.Keys == store.Keys
    ensures forall other :: other in store && other != id ==> d.store[other] == store[other]
    ensures id in store ==> d.store[id] == if w.Written? then current - 1 else store[id]
    ensures w.WriteRaised? ==> d.store == store
  {
    var newCredits := current - 1;
    var after := if w.Written? then Update(store, id, newCredits) else store;
    Decrement(newCredits, after)
  }

  /** Whether the write went through does not change what the caller is told. */
  lemma CreditsLeftIgnoresWriteOutcome(store: Store, id: Id, current: int)
    ensures DecrementCredit(store, id, current, Written).creditsLeft
         == DecrementCredit(store, id, current, WriteRaised).creditsLeft
  {
  }

  /** A snapshot taken through the gate has positive credits, so the balance reported and the
      balance written never go below zero. */
  lemma DecrementStaysNonNegative(store: Store, id: Id, current: int, w: Write)
    requires current > 0
    ensures DecrementCredit(store, id, current, w).creditsLeft >= 0
    ensures id in store && w.Written? ==> DecrementCredit(store, id, current, w).store[id] >= 0
  {
  }
}

=== FILE: pipeline.dfy ===
/** The two-tier repair of `perform_repair`: a heuristic repair followed by a JSON decode, and, on
    any failure of that, exactly one chat-completion attempt whose content is decoded. */
module RepairPipeline {
  import opened Wrappers
  import opened Json
  import opened Services

  /** Which tier produced a repaired value. */
  datatype Tier = Heuristic | Llm

  /** The tier label the routes put in the response body. */
  function Label(t: Tier): string
  {
    match t
    case Heuristic => "heuristic"
    case Llm => "llm"
  }

  /** The exception class that escapes `perform_repair`. The routes tell a JSON decode error
      apart from every other exception. */
  datatype Failure = InvalidJson | OtherError

  /** The result of `perform_repair`: a decoded value with its tier, or the exception it raised. */
  datatype Outcome = Success(value: Json, tier: Tier) | Failed(failure: Failure)

  /** Result of the heuristic tier: a decoded value, or a failure to fall back from. */
  datatype Tier1 = Tier1Ok(value: Json) | Tier1Fail

  /** Result of the LLM tier: a decoded value, a JSON decode error (raised by the chat client on
      a malformed response body, or by the decoder on the content), or any other exception: the
      service failing, absent content (which the decoder rejects with a type error), or content on
      which the decoder raises something other than a decode error. */
  datatype Tier2 = Tier2Ok(value: Json) | BadJson | OtherException

  /** The heuristic tier yields a value: the library returned text and that text decodes. */
  predicate HeuristicDecodes(env: Repairers, broken: string)
  {
    env.repairJson(broken).Repaired? && env.loads(env.repairJson(broken).text).Parsed?
  }

  /** The chat service returned content and that content decodes. */
  predicate LlmDecodes(env: Repairers)
  {
    env.chat.Completion? && env.chat.content.Some? && env.loads(env.chat.content.value).Parsed?
  }

  /** The LLM tier raises a JSON decode error: the chat client did while decoding the service's
      response, or the chat content was present and decoding it did. */
  predicate LlmDecodeErrorRaised(env: Repairers)
  {
    || env.chat.ChatDecodeRaised?
    || (env.chat.Completion? && env.chat.content.Some? && env.loads(env.chat.content.value).DecodeError?)
  }

  /** Tier 1: repair the text heuristically, then decode it. Whichever of the two raises, the
      tier fails; the decoder is consulted only when the repair returned text. */
  function HeuristicStep(env: Repairers, broken: string): (s: Step<Tier1>)
    ensures s.result.Tier1Ok? <==> HeuristicDecodes(env, broken)
    ensures s.result.Tier1Ok? ==> env.loads(env.repairJson(broken).text) == Parsed(s.result.value)
    // The library is consulted first, the decoder only when the library returned text, and the
    // chat service never.
    ensures |s.calls| > 0 && s.calls[0] == RepairJsonCall
    ensures Occurrences(s.calls, RepairJsonCall) == 1 && Occurrences(s.calls, LoadsCall) <= 1
    ensures LoadsCall in s.calls <==> env.repairJson(broken).Repaired?
    ensures forall c :: c in s.calls ==> c == RepairJsonCall || c == LoadsCall
  {
    match env.repairJson(broken)
    case RepairRaised => Step(Tier1Fail, [RepairJsonCall])
    case Repaired(text) =>
      match env.loads(text)
      case Parsed(v) => Step(Tier1Ok(v), [RepairJsonCall, LoadsCall])
      case _ => Step(Tier1Fail, [RepairJsonCall, LoadsCall])
  }

  /** Tier 2: one call of the chat client, whose content is decoded. An error raised by the
      client issues no decode; absent content is still handed to the decoder, which raises a
      type error. */
  function LlmStep(env: Repairers): (s: Step<Tier2>)
    ensures s.result.Tier2Ok? <==> LlmDecodes(env)
    ensures s.result.BadJson? <==> LlmDecodeErrorRaised(env)
    ensures s.result.Tier2Ok? ==> env.loads(env.chat.content.value) == Parsed(s.result.value)
    ensures Occurrences(s.calls, ChatCall) == 1 && |s.calls| > 0 && s.calls[0] == ChatCall
    ensures Occurrences(s.calls, LoadsCall) <= 1
    // The decoder runs exactly when the client returned a completion, even one without content.
    ensures LoadsCall in s.calls <==> env.chat.Completion?
    ensures forall c :: c in s.calls ==> c == ChatCall || c == LoadsCall
  {
    match env.chat
    case ChatRaised => Step(OtherException, [ChatCall])
    case ChatDecodeRaised => Step(BadJson, [ChatCall])
    case Completion(None) => Step(OtherException, [ChatCall, LoadsCall])
    case Completion(Some(content)) =>
      match env.loads(content)
      case Parsed(v) => Step(Tier2Ok(v), [ChatCall, LoadsCall])
      case DecodeError => Step(BadJson, [ChatCall, LoadsCall])
      case LoadsRaised => Step(OtherException, [ChatCall, LoadsCall])
  }

  /** `perform_repair`: the heuristic tier, and only when it fails the LLM tier. */
  function PerformRepair(env: Repairers, broken: string): (r: Step<Outcome>)
    // The heuristic tier decides when it succeeds, and the chat client is never called.
    ensures HeuristicDecodes(env, broken) ==>
              r.result == Success(env.loads(env.repairJson(broken).text).value, Heuristic)
              && Occurrences(r.calls, ChatCall) == 0
    // Otherwise the chat client is called exactly once: the route adds no retry. Its decoded
    // content is the value, labelled llm; a decode error in the LLM tier escapes as such, and
    // every other failure as another exception.
    ensures !HeuristicDecodes(env, broken) ==> Occurrences(r.calls, ChatCall) == 1
    ensures !HeuristicDecodes(env, broken) && LlmDecodes(env) ==>
              r.result == Success(env.loads(env.chat.content.value).value, Llm)
    ensures !HeuristicDecodes(env, broken) && LlmDecodeErrorRaised(env) ==>
              r.result == Failed(InvalidJson)
    ensures !HeuristicDecodes(env, broken) && !LlmDecodes(env) && !LlmDecodeErrorRaised(env) ==>
              r.result == Failed(OtherError)
    // The heuristic library is called once, and Tier 1's calls all come before any of Tier 2's;
    // the pipeline touches no profile.
    ensures |r.calls| > 0 && r.calls[0] == RepairJsonCall
    ensures Occurrences(r.calls, RepairJsonCall) == 1
    ensures var t1 := HeuristicStep(env, broken).calls; |t1| <= |r.calls| && r.calls[..|t1|] == t1
    ensures forall c :: c in r.calls ==> PipelineCall(c)
  {
    var t1 := HeuristicStep(env, broken);
    if t1.result.Tier1Ok? then
      assert ChatCall !in t1.calls;
      Step(Success(t1.result.value, Heuristic), t1.calls)
    else
      var t2 := LlmStep(env);
      assert ChatCall !in t1.calls;
      assert multiset(t1.calls + t2.calls) == multiset(t1.calls) + multiset(t2.calls);
      Step(Fallback(t2.result), t1.calls + t2.calls)
  }

  /** What `perform_repair` does with the LLM tier's result: a decoded value is an "llm" repair,
      and each failure escapes with its own exception class. */
  function Fallback(t: Tier2): (o: Outcome)
  {
    match t
    case Tier2Ok(v) => Success(v, Llm)
    case BadJson => Failed(InvalidJson)
    case OtherException => Failed(OtherError)
  }

  /** The tier label tells which path produced the value: "llm" exactly when the heuristic tier
      failed and the chat content decoded. */
  lemma TierReflectsPath(env: Repairers, broken: string)
    ensures var r := PerformRepair(env, broken).result;
            r.Success? ==> (r.tier == Heuristic <==> HeuristicDecodes(env, broken))
    ensures var r := PerformRepair(env, broken).result;
            r.Success? && r.tier == Llm <==> !HeuristicDecodes(env, broken) && LlmDecodes(env)
  {
  }

  /** Every value the pipeline hands back was produced by the decoder: no undecoded text is ever
      returned as a repair. */
  lemma RepairedValueWasDecoded(env: Repairers, broken: string)
    ensures var r := PerformRepair(env, broken).result;
            r.Success? ==> exists text :: env.loads(text) == Parsed(r.value)
  {
    var r := PerformRepair(env, broken).result;
    if r.Success? {
      if HeuristicDecodes(env, broken) {
        assert env.loads(env.repairJson(broken).text) == Parsed(r.value);
      } else {
        assert env.loads(env.chat.content.value) == Parsed(r.value);
      }
    }
  }

  /** A tier-1 failure never escapes: whether the heuristic library raised or its text failed to
      decode, the failure class of the pipeline is decided by the LLM tier alone. */
  lemma FailureComesFromLlmTier(env: Repairers, broken: string)
    ensures PerformRepair(env, broken).result == Failed(InvalidJson) <==>
              !HeuristicDecodes(env, broken) && LlmDecodeErrorRaised(env)
    ensures PerformRepair(env, broken).result == Failed(OtherError) <==>
              !HeuristicDecodes(env, broken) && !LlmDecodes(env) && !LlmDecodeErrorRaised(env)
  {
  }
}

=== FILE: routes.dfy ===
/** The two repair routes: the free demo route and the metered route. Each is a pure function of
    the request, the world it meets and the credits table, returning the response, the table
    afterwards and the external calls it issued. */
module Routes {
  import opened Wrappers
  import opened Json
  import opened Services
  import opened RepairPipeline
  import opened AccessGate
  import opened CreditLedger

  /** Largest input, in characters, the demo route accepts. */
  const DemoLimit: nat := 5000

  /** A successful response body. Only the metered route reports the credits left. */
  datatype Body = Body(repairedJson: Json, tier: string, creditsLeft: Option<int>)

  /** A 200 response with its body, or an HTTP error with its status and detail. */
  datatype Response = Ok(body: Body) | Error(status: int, detail: string)

  /** The HTTP status of a response. */
  function Status(r: Response): int
  {
    if r.Ok? then 200 else r.status
  }

  /** What a handler leaves behind: its response, the credits table, the calls it issued. */
  datatype Handled = Handled(response: Response, store: Store, calls: seq<Call>)

  /** `repair_demo`: the size limit, then the pipeline; every pipeline failure is a plain 500. */
  function RepairDemo(env: Env, store: Store, broken: string): (h: Handled)
    ensures Status(h.response) == 413 <==> |broken| > DemoLimit
    ensures |broken| > DemoLimit ==> h == Handled(Error(413, "Input too large for demo"), store, [])
    // Within the limit, the route issues exactly the pipeline's calls, and no more.
    ensures |broken| <= DemoLimit ==> h.calls == PerformRepair(env.tools, broken).calls
    ensures h.response.Ok? <==> |broken| <= DemoLimit && PerformRepair(env.tools, broken).result.Success?
    ensures h.response.Ok? ==>
              var repaired := PerformRepair(env.tools, broken).result;
              h.response.body == Body(repaired.value, Label(repaired.tier), None)
    ensures h.response.Error? ==> h.response.status in {413, 500}
    ensures Status(h.response) == 500 ==> h.response.detail == "Repair failed"
    // The demo route never reads or writes the credits table.
    ensures h.store == store
    ensures ProfileQueryCall !in h.calls && CreditUpdateCall !in h.calls
  {
    if |broken| > DemoLimit then Handled(Error(413, "Input too large for demo"), store, [])
    else
      var repair := PerformRepair(env.tools, broken);
      match repair.result
      case Success(v, tier) => Handled(Ok(Body(v, Label(tier), None)), store, repair.calls)
      case Failed(_) => Handled(Error(500, "Repair failed"), store, repair.calls)
  }

  /** The demo limit is inclusive: an input of exactly the limit goes to the pipeline, one
      character more is refused before any external call. */
  lemma DemoSizeBoundary(env: Env, store: Store, broken: string)
    ensures |broken| == DemoLimit ==> Status(RepairDemo(env, store, broken).response) != 413
    ensures |broken| == DemoLimit ==> |RepairDemo(env, store, broken).calls| > 0
    ensures |broken| == DemoLimit + 1 ==>
              RepairDemo(env, store, broken)
              == Handled(Error(413, "Input too large for demo"), store, [])
  {
  }

  /** The `try` block of `repair_endpoint`, run for an admitted profile: the pipeline, then the
      credit decrement. A decode error escaping the pipeline and any other exception map to two
      different 500 responses; neither writes anything. */
  function RepairAndBill(env: Env, store: Store, profile: Profile, broken: string): (h: Handled)
    ensures h.response.Ok? <==> PerformRepair(env.tools, broken).result.Success?
    ensures h.response.Ok? ==>
              var repaired := PerformRepair(env.tools, broken).result;
              h.response.body == Body(repaired.value, Label(repaired.tier), Some(profile.credits - 1))
    // The pipeline's calls, then the one credit write when the repair succeeded.
    ensures h.calls
            == PerformRepair(env.tools, broken).calls + if h.response.Ok? then [CreditUpdateCall] else []
    ensures h.response.Error? ==>
              && h.response.status == 500
              && h.store == store
              && (h.response.detail == "Repair produced invalid JSON" <==>
                  PerformRepair(env.tools, broken).result == Failed(InvalidJson))
              && (h.response.detail == "Repair failed" <==>
                  PerformRepair(env.tools, broken).result == Failed(OtherError))
  {
    var repair := PerformRepair(env.tools, broken);
    match repair.result
    case Success(v, tier) =>
      var d := DecrementCredit(store, profile.id, profile.credits, env.write);
      Handled(Ok(Body(v, Label(tier), Some(d.creditsLeft))), d.store, repair.calls + [CreditUpdateCall])
    case Failed(InvalidJson) =>
      Handled(Error(500, "Repair produced invalid JSON"), store, repair.calls)
    case Failed(OtherError) =>
      Handled(Error(500, "Repair failed"), store, repair.calls)
  }

  /** The `try` block issues exactly one credit write, only for a successful repair and after
      every pipeline call, and never queries a profile. */
  lemma RepairAndBillCalls(env: Env, store: Store, profile: Profile, broken: string)
    ensures var h := RepairAndBill(env, store, profile, broken);
            Occurrences(h.calls, CreditUpdateCall) == if h.response.Ok? then 1 else 0
    ensures var h := RepairAndBill(env, store, profile, broken);
            h.response.Ok? ==> h.calls[|h.calls| - 1] == CreditUpdateCall
    ensures ProfileQueryCall !in RepairAndBill(env, store, profile, broken).calls
  {
    var h := RepairAndBill(env, store, profile, broken);
    var repair := PerformRepair(env.tools, broken).calls;
    assert !PipelineCall(CreditUpdateCall) && !PipelineCall(ProfileQueryCall);
    assert CreditUpdateCall !in repair && ProfileQueryCall !in repair;
    if h.response.Ok? {
      assert h.calls == repair + [CreditUpdateCall];
      assert multiset(h.calls) == multiset(repair) + multiset{CreditUpdateCall};
    } else {
      assert h.calls == repair;
    }
  }

  /** The table changes only through a credit write that went through, and only at the admitted
      profile's row, which becomes the snapshot's credits minus one whatever the row held. */
  lemma RepairAndBillLedger(env: Env, store: Store, profile: Profile, broken: string)
    ensures RepairAndBill(env, store, profile, broken).store.Keys == store.Keys
    ensures var after := RepairAndBill(env, store, profile, broken).store;
            forall other :: other in store && other != profile.id ==> after[other] == store[other]
    ensures var h := RepairAndBill(env, store, profile, broken);
            profile.id in store ==>
              h.store[profile.id]
              == if h.response.Ok? && env.write.Written? then profile.credits - 1 else store[profile.id]
    ensures env.write.WriteRaised? ==> RepairAndBill(env, store, profile, broken).store == store
  {
  }

  /** `repair_endpoint`: the admission gate, then the repair and the credit decrement. */
  function RepairEndpoint(env: Env, store: Store, key: Option<string>, broken: string): (h: Handled)
    // The gate's exits, in order.
    ensures Status(h.response) == 401 <==> !KeyPresent(key)
    ensures Status(h.response) == 403 <==> KeyPresent(key) && GetProfileByApiKey(env.query).None?
    ensures Status(h.response) == 402 <==>
              KeyPresent(key) && GetProfileByApiKey(env.query).Some?
              && GetProfileByApiKey(env.query).value.credits <= 0
    ensures Status(h.response) == 413 <==>
              KeyPresent(key) && GetProfileByApiKey(env.query).Some?
              && GetProfileByApiKey(env.query).value.credits > 0 && |broken| > MeteredLimit
    // A missing key is refused before any lookup.
    ensures !KeyPresent(key) ==> h.calls == []
    // On every gate exit the pipeline is not run and nothing is written.
    ensures Status(h.response) in {401, 402, 403, 413} ==>
              h.store == store && forall c :: c in h.calls ==> c == ProfileQueryCall
    // Each gate exit answers with the gate's own status and message, after exactly the calls the
    // gate made: none for a missing key, the one profile query for the other three.
    ensures var gate := Admit(key, env.query, |broken|);
            gate.result.Rejected? ==>
              h == Handled(Error(gate.result.status, gate.result.detail), store, gate.calls)
    // Past the gate, the `try` block decides.
    ensures Admit(key, env.query, |broken|).result.Admitted? ==>
              var profile := Admit(key, env.query, |broken|).result.profile;
              var tail := RepairAndBill(env, store, profile, broken);
              h == tail.(calls := [ProfileQueryCall] + tail.calls)
  {
    var gate := Admit(key, env.query, |broken|);
    match gate.result
    case Rejected(status, detail) => Handled(Error(status, detail), store, gate.calls)
    case Admitted(profile) =>
      var tail := RepairAndBill(env, store, profile, broken);
      tail.(calls := gate.calls + tail.calls)
  }

  /** A metered success reports the snapshot's credits minus one, which is never negative, and
      issues exactly one credit write; a repair failure past the gate is a 500 that writes
      nothing. */
  lemma MeteredOutcome(env: Env, store: Store, key: Option<string>, broken: string)
    ensures var h := RepairEndpoint(env, store, key, broken);
            h.response.Ok? <==>
              Admit(key, env.query, |broken|).result.Admitted?
              && PerformRepair(env.tools, broken).result.Success?
    ensures var h := RepairEndpoint(env, store, key, broken);
            h.response.Ok? ==>
              && h.response.body.creditsLeft == Some(GetProfileByApiKey(env.query).value.credits - 1)
              && h.response.body.creditsLeft.value >= 0
              && Occurrences(h.calls, CreditUpdateCall) == 1
    ensures var h := RepairEndpoint(env, store, key, broken);
            Status(h.response) == 500 <==>
              Admit(key, env.query, |broken|).result.Admitted?
              && PerformRepair(env.tools, broken).result.Failed?
    ensures var h := RepairEndpoint(env, store, key, broken);
            !h.response.Ok? ==> h.store == store && Occurrences(h.calls, CreditUpdateCall) == 0
  {
    var gate := Admit(key, env.query, |broken|);
    if gate.result.Admitted? {
      var tail := RepairAndBill(env, store, gate.result.profile, broken);
      RepairAndBillCalls(env, store, gate.result.profile, broken);
      assert RepairEndpoint(env, store, key, broken).calls == [ProfileQueryCall] + tail.calls;
      assert Occurrences([ProfileQueryCall] + tail.calls, CreditUpdateCall)
          == Occurrences(tail.calls, CreditUpdateCall);
    }
  }

  /** A failed credit write is invisible to the caller: the response is the one a successful
      write would have produced, and the table is left as it was. */
  lemma WriteFailureDoesNotChangeResponse(env: Env, store: Store, profile: Profile, broken: string)
    ensures RepairAndBill(env.(write := WriteRaised), store, profile, broken).response
         == RepairAndBill(env.(write := Written), store, profile, broken).response
    ensures RepairAndBill(env.(write := WriteRaised), store, profile, broken).store == store
  {
    CreditsLeftIgnoresWriteOutcome(store, profile.id, profile.credits);
  }

  /** The gate fails closed: a lookup that raised is treated like an unknown key. */
  lemma LookupErrorIsForbidden(env: Env, store: Store, key: Option<string>, broken: string)
    requires KeyPresent(key) && env.query.QueryRaised?
    ensures RepairEndpoint(env, store, key, broken).response == Error(403, "Invalid API key")
    ensures RepairEndpoint(env, store, key, broken).calls == [ProfileQueryCall]
  {
  }

  /** On the same failure the two routes report differently: when the LLM tier raises a JSON
      decode error, the metered route names the invalid JSON while the demo route reports a
      plain repair failure. */
  lemma RoutesReportInvalidJsonDifferently(env: Env, store: Store, key: Option<string>, broken: string)
    requires Admit(key, env.query, |broken|).result.Admitted? && |broken| <= DemoLimit
    requires !HeuristicDecodes(env.tools, broken) && LlmDecodeErrorRaised(env.tools)
    ensures RepairEndpoint(env, store, key, broken).response
         == Error(500, "Repair produced invalid JSON")
    ensures RepairDemo(env, store, broken).response == Error(500, "Repair failed")
  {
    FailureComesFromLlmTier(env.tools, broken);
  }
}

=== FILE: services.dfy ===
/** The external collaborators of one request, reduced to the outcomes the handlers can observe.
    Each library call or network call of the service is an input here, never something the
    model computes. */
module Services {
  import opened Wrappers
  import opened Json

  /** Primary key of a row of the profiles table. */
  type Id = string

  /** The credits column of the profiles table, keyed by profile id. */
  type Store = map<Id, int>

  /** The two columns the access gate selects from a profile row. */
  datatype Profile = Profile(id: Id, credits: int)

  /** What the heuristic repair library does with one input: return repaired text, or raise. */
  datatype RepairText = Repaired(text: string) | RepairRaised

  /** What one call of the chat-completion client does with one prompt. `content` is the message
      content of the first choice, which the service may leave absent. The client decodes the
      service's response body itself: a body that is not JSON makes the call raise a JSON decode
      error, `ChatDecodeRaised`. Any other error on the way to the content (network, quota, an
      empty list of choices) is `ChatRaised`. */
  datatype Chat = Completion(content: Option<string>) | ChatDecodeRaised | ChatRaised

  /** What the profile query returns: the selected rows, or an exception. */
  datatype Query = Rows(rows: seq<Profile>) | QueryRaised

  /** Whether the credits update went through or raised. */
  datatype Write = Written | WriteRaised

  /** The collaborators of the repair pipeline. The repair library and the JSON decoder are
      deterministic, so they are functions of their input; the chat service is the single
      outcome of the single completion the request may ask for. */
  datatype Repairers = Repairers(
    repairJson: string -> RepairText,
    loads: string -> Decoded,
    chat: Chat)

  /** The world one request meets: the pipeline's collaborators, and the outcomes of the one
      profile query and the one credits update the request may issue. */
  datatype Env = Env(tools: Repairers, query: Query, write: Write)

  /** An external call a handler issues. Handlers report the calls they make, in order. */
  datatype Call = RepairJsonCall | LoadsCall | ChatCall | ProfileQueryCall | CreditUpdateCall

  /** The calls that belong to the repair pipeline. */
  predicate PipelineCall(c: Call)
  {
    c == RepairJsonCall || c == LoadsCall || c == ChatCall
  }

  /** A result together with the external calls issued to produce it, in order. */
  datatype Step<T> = Step(result: T, calls: seq<Call>)

  /** How many times `c` was issued. */
  function Occurrences(calls: seq<Call>, c: Call): nat
  {
    multiset(calls)[c]
  }
}

=== FILE: wrappers.dfy ===
/** Optional values, for the places where the service returns a value or nothing. */
module Wrappers {

  /** A present value, or none (Python's `None`). */
  datatype Option<+T> = None | Some(value: T)
}
